=== FILE: README.md ===
# DC404 Notes: glitch overlay and session record, in Dafny

DC404 Notes is a small Tk text editor whose one piece of engineering is its
"glitch overlay". This is a canvas stacked over the text. Every 80 ms it redraws:

- 6 to 12 random scanlines, each with an optional parallax copy;
- 2 to 5 blocks, each with an optional chromatic-split copy;
- now and then a stippled full-surface flash.

It uses the glitch colours of the active theme. A small JSON session record
holds the theme, wrap mode, overlay on/off and window geometry, and is written
back after every change. This project models that core and proves facts about it:

- `Themes` holds the three palettes with their exact colours and the
  fallback-to-"Dark" lookup.
- `Session` holds the session record, a map from keys to JSON scalars. It has
  Python truthiness, the `.get` default and the load/save round trip against a
  modelled state file that may be missing or unreadable.
- `Shapes` describes which rectangles a frame may contain, independently of how
  they are drawn:
  - geometry, stipple layer and palette membership;
  - each copy directly after its base;
  - layer order;
  - counts per kind.
- `Glitch` is `_glitch_tick`. Every `random.randint`, `random.choice` and
  `random.random() < p` it performs becomes a field of a `Draws` value. The tick
  renders the rectangles in the order the code creates them. A block whose width
  leaves `randint(-10, w - bw + 10)` an empty range raises. The model keeps the
  rectangles drawn up to that point.
- `FrameInverse` proves the converse: every rectangle sequence of the frame
  shape is what some draws produce. The shape is therefore an exact description
  of a tick's frames.
- `Overlay` is the editor's handler state:
  - the session record and the saved file;
  - `_glitch_job`, and Tk's queue of pending `after` callbacks as a map from
    handle to delay;
  - the overlay's stacking position, the canvas items and the two checkboxes.

  Its handlers are `_schedule_glitch`, `_start_glitch`, `_stop_glitch`, the
  callback firing, `_toggle_glitch`, `_toggle_wrap`, `_apply_theme`, `_on_close`
  and `__init__`, and the "last_file" update at the end of File > Open and
  File > Save As. An event handler whose tick raised returns `Aborted`: the rest
  of the handler did not run, and the app keeps what was done before, because
  Tk reports the exception and its loop goes on. An `Aborted` start-up
  (`Overlay.Init`) is different: the exception escapes the editor's
  constructor, so the editor never starts. The `Lifecycle` lemmas therefore
  assume a completed start-up.
- `Lifecycle` drives those handlers from the events Tk's loop delivers: timer
  firings, menu clicks (including an opened file and a file saved under a new
  name) and the close request. It proves an invariant of every
  reachable state:
  - at most one pending tick, and it is `_glitch_job`;
  - the saved file equals the record in memory;
  - the checkboxes agree with the record.

  It also proves that a restart restores the record.
- `GlitchFacts` collects facts about particular canvases. On an 800×600
  canvas with the "Dark" theme every tick draws, with 6 to 12 scanlines. Below
  30 pixels of width a tick can raise.

The model follows the code where the code departs from a strict start/stop
discipline with one pending tick:

- `_start_glitch` is not idempotent. Called while a chain is running, it arms a
  second chain and overwrites the job handle, so a later stop cancels only one
  of them (`Lifecycle.StartTwiceLeavesOrphanTick`).
- The timer callback does not check whether the overlay is running. A stale
  callback draws a full frame and re-arms (`Lifecycle.OrphanTickKeepsDrawing`).
- The first frame is drawn synchronously inside `_start_glitch`
  (`Lifecycle.StartDrawsImmediately`).
- The chromatic-split colour is an independent `random.choice`, so it may equal
  the block's colour.

When the overlay is driven only through its checkbox, as the menus do, the
single-pending-tick property holds (`Lifecycle.ReachableStatesHaveOneTimerAtMost`).

## Model

| member | source | states |
|---|---|---|
| Session.Put | DC404notes.py:319 | writing a key binds it to the value, adds only that key, and leaves every other key as it was |
| Session.Load | DC404notes.py:105-110 | a readable state file yields its record; a missing or unparsable one yields the empty record |
| Session.Save | DC404notes.py:112-117 | writing the state always leaves a parsable document |
| Session.LoadAfterSave | DC404notes.py:105-117 | loading what was saved gives back exactly the saved record |
| Session.LoadFailureDefaults | DC404notes.py:105-110 | with no readable state file every `.get` answers its default |
| Themes.Resolve | DC404notes.py:330 | a name resolves to one of the three palettes, with three or four glitch colours; any name other than "Light" or "Dark Glitch" gets the "Dark" palette |
| Themes.ResolveValue | DC404notes.py:378 | a stored theme that is not a string resolves to the "Dark" palette; a string resolves as its name |
| Themes.ResolveSelectsNamed | DC404notes.py:75-103 | "Light" is the only name giving the Light palette and "Dark Glitch" the only one giving Dark Glitch; "Dark" is chosen exactly for all other names |
| Themes.UnknownFallsBackToDefault | DC404notes.py:330 | a name outside the registry resolves exactly as the default "Dark" |
| Themes.EveryPaletteHasGlitchColors | DC404notes.py:75-103 | the registry holds exactly "Dark", "Light" and "Dark Glitch", each with a non-empty glitch colour list, so `random.choice` never faces an empty list |
| Glitch.TickColors | DC404notes.py:378-379 | three or four colours: Light's when the record names "Light", Dark Glitch's when it names "Dark Glitch", and Dark's when "theme" is absent or holds any other value |
| Glitch.Oversized | DC404notes.py:403-405 | the x draw raises exactly when the block is more than 20 pixels wider than the canvas, which an allowed width can only be on a canvas narrower than 30 pixels |
| Glitch.DrawsFit | DC404notes.py:389-417 | the draws lie in the ranges of the tick's `randint`/`choice` calls; fields drawn after `x` are constrained only when the x range is non-empty; fitting draws need a non-empty colour list, never raise on a canvas 30 or more wide, and place every drawn block within 10 pixels past either edge |
| Glitch.ScanPair | DC404notes.py:390-399 | one scanline draw gives one full-width gray50 scanline, optionally followed by its gray25 parallax copy one pixel lower |
| Glitch.ScanRun | DC404notes.py:389-399 | n scanline draws give exactly n scanlines and at most n copies, all well placed on the lowest layer |
| Glitch.BlockPair | DC404notes.py:403-413 | one block draw gives one gray25 block, optionally followed by its gray50 split copy at an offset from the fixed offset lists |
| Glitch.BlockLoop | DC404notes.py:402-413 | either every block is drawn and none is oversized, or the loop stops at the first oversized block, with the earlier blocks drawn |
| Glitch.FlashRun | DC404notes.py:416-417 | the flash is present exactly when its draw succeeds, and then is one gray12 rectangle covering the canvas |
| Glitch.Render | DC404notes.py:386-417 | a tick raises exactly when some block is wider than the canvas plus 20; otherwise the frame has the frame shape with as many scanlines and blocks as drawn, and a flash exactly when drawn |
| Glitch.GlitchTick | DC404notes.py:377-417 | a tick skips exactly when the canvas is at most 2 pixels in a dimension; a drawn frame has the frame shape and 8 to 35 rectangles; a raising tick needs a canvas 3 to 29 pixels wide |
| Shapes.CopiesBounded | DC404notes.py:396-413 | a well-formed frame has no more parallax copies than scanlines and no more split copies than blocks |
| Shapes.FrameSize | DC404notes.py:389-417 | a frame of the frame shape has between 8 and 35 rectangles |
| FrameInverse.DecodeScans | DC404notes.py:389-399 | every well-placed run of scanlines and parallax copies is what some in-range scanline draws produce |
| FrameInverse.DecodeBlocks | DC404notes.py:402-413 | every well-placed run of blocks and split copies is what some in-range, non-raising block draws produce |
| FrameInverse.DecodeFrame | DC404notes.py:386-417 | every rectangle sequence of the frame shape is the frame of some in-range draws |
| FrameInverse.FrameShapeIsExact | DC404notes.py:386-417 | on a laid-out canvas a sequence has the frame shape if and only if some in-range draws render exactly it |
| GlitchFacts.WidthRangeNonEmpty | DC404notes.py:403 | the block-width range is never empty |
| GlitchFacts.WidthCanOverflowIffNarrow | DC404notes.py:403-405 | some allowed block width leaves the x range empty if and only if the canvas is narrower than 30 pixels |
| GlitchFacts.NarrowCanvasCanRaise | DC404notes.py:403-405 | on every canvas 3 to 29 pixels wide some in-range draws make the tick raise |
| GlitchFacts.DarkThemeLargeCanvas | DC404notes.py:377-417 | with the "Dark" theme on an 800×600 canvas every tick draws, with 6 to 12 scanlines, in the Dark glitch colours only |
| Overlay.Arm | DC404notes.py:375 | `after` issues a fresh handle, queues it with an 80 ms delay, keeps every other pending callback, and the handle becomes the job |
| Overlay.Schedule | DC404notes.py:371-375 | the tick runs before the next one is armed; the canvas then shows exactly the rectangles that tick drew (all of them, or those drawn before it raised), or is left as it was when the tick skipped; a raising tick leaves job and queue untouched; a skipped tick still arms; checkboxes and record are untouched |
| Overlay.Start | DC404notes.py:355-358 | the overlay is lifted whatever happens; the canvas shows exactly what the synchronous first tick drew; when the tick completes, the overlay animates under a freshly issued job and every earlier pending callback stays queued; checkboxes and record are untouched |
| Overlay.Stop | DC404notes.py:360-369 | exactly the job's callback leaves the queue, the job is cleared, the canvas emptied and the overlay lowered; the record, the checkboxes and the handle counter are untouched |
| Overlay.Fire | DC404notes.py:371-375 | a firing callback leaves the queue; the canvas shows exactly what its tick drew; when the tick completes, exactly one fresh callback is armed and becomes the job, and when it raises the job is unchanged; stacking, checkboxes and record are untouched |
| Overlay.ToggleGlitch | DC404notes.py:346-353 | the checkbox value is stored under "glitch_on" alone and saved; checked starts the overlay, whose canvas shows the first tick's rectangles drawn from the updated record; unchecked clears the job and removes exactly its callback from the queue |
| Overlay.ToggleWrap | DC404notes.py:316-320 | the checkbox value is stored under "wrap" alone and saved; the overlay is untouched |
| Overlay.ApplyTheme | DC404notes.py:329-343 | the chosen name is stored as given under "theme" alone and saved, and the next tick draws from that name's resolved palette |
| Overlay.RememberFile | DC404notes.py:251-278 | the path is stored under "last_file" alone and saved; the overlay and the checkboxes are untouched |
| Overlay.Close | DC404notes.py:420-424 | the geometry is stored under "geometry" alone and saved, then the overlay is stopped (exactly the job's callback leaves the queue) and the window closed |
| Overlay.InitialState | DC404notes.py:128-221 | the record after start-up is the loaded one with "wrap" rewritten as a boolean (the stored value's truthiness, true when absent) and "theme" defaulting to "Dark", all other keys as loaded, and the tick colours those of the loaded record |
| Overlay.Init | DC404notes.py:120-150 | start-up saves the record and sets the checkboxes from it; the overlay is lifted, and animates, exactly when "glitch_on" is truthy |
| Overlay.SameThemeColors | DC404notes.py:378 | writing any key other than "theme" leaves the tick's colours unchanged |
| Lifecycle.InitIsGood | DC404notes.py:120-150 | a completed start-up satisfies the editor invariant |
| Lifecycle.Dispatch | DC404notes.py:170-424 | a menu checkbutton flips its variable before its command stores it (glitch and wrap); a theme item stores its own name and later ticks draw from that theme; open and save-as store the path under "last_file"; only the close request closes; only a timer or the glitch checkbox runs a tick, so only they can abort |
| Lifecycle.FireKeepsGood | DC404notes.py:371-375 | in a good state the only armed callback is the job, and firing it keeps the state good |
| Lifecycle.GlitchClickKeepsGood | DC404notes.py:346-375 | flipping the overlay checkbox keeps the state good: turning it on finds no pending callback, turning it off cancels the only one |
| Lifecycle.DispatchKeepsGood | DC404notes.py:243-424 | every event the loop can deliver that touches the overlay or the record (timer, glitch and wrap checkboxes, theme, opened or saved-as file, close) preserves the editor invariant |
| Lifecycle.RunKeepsGood | DC404notes.py:243-424 | every sequence of events preserves the editor invariant |
| Lifecycle.GoodHasOneTimerAtMost | DC404notes.py:355-375 | under the invariant at most one callback is pending, and if one is, it is the running job |
| Lifecycle.UncheckedMeansNoTimer | DC404notes.py:346-369 | under the invariant an unchecked overlay has no pending callback |
| Lifecycle.ReachableStatesHaveOneTimerAtMost | DC404notes.py:346-375 | every state reachable from start-up has at most one pending tick and a saved file equal to the record |
| Lifecycle.RestartRestoresSession | DC404notes.py:105-150 | starting again from the saved file rebuilds the same record and the same checkbox values |
| Lifecycle.FreshStartDefaults | DC404notes.py:128-150 | with no readable state file the editor starts with wrap on, theme "Dark", no overlay and no pending tick, and saves exactly that |
| Lifecycle.StartTwiceLeavesOrphanTick | DC404notes.py:355-375 | two direct starts leave two pending ticks, and a stop cancels only the second |
| Lifecycle.OrphanTickKeepsDrawing | DC404notes.py:371-417 | a callback still pending after a stop draws a full frame under the lowered overlay and re-arms |
| Lifecycle.StartDrawsImmediately | DC404notes.py:355-375 | on a laid-out canvas, starting draws at least six rectangles before returning |

## Left out

- Tk widgets and their `configure` calls (colours of the root, text, frames and canvas) are not modelled. A palette's non-glitch colours are kept as data only.
- The canvas size comes from `winfo_width`/`winfo_height`, and the random draws come from the `random` module. Both are parameters of each tick (`TickInput`), not computed.
- The wall clock is left out. Tk's timer queue is modelled as the set of pending callbacks with their delays; the order in which two pending callbacks fire is left to the event sequence.
- File I/O is reduced to a three-state `Disk`: absent, unreadable, or a parsed document. JSON formatting and write failures in `save_state` are not modelled.
- Session values are JSON strings, booleans, integers and null. Floats, lists and objects are left out. A list or object as the theme would make the theme lookup raise, because such keys are unhashable.
- `Session.Load`: a state file that parses as JSON but is not an object (`[]`, `3`, `"x"`, `null`) is not representable. `load_state` returns such a value, and `__init__` would then fail at its first `.get` (line 129). The editor itself only ever writes an object, so `Disk` offers a parsed record, an unreadable file, or no file.
- `Overlay.Init` does not model the geometry restore (lines 129-131) and does not model reopening `last_file` (lines 139-144). Both are window-system and file-system calls. When the reopening succeeds it writes "last_file" back with the value it already had.
- File commands are modelled only through their effect on the session record: `Overlay.RememberFile`, for a successful open (lines 251-252) and for Save As once a path is chosen (lines 277-278). On a note with no file yet, Save (lines 257-258), and New after a "yes" to its save prompt (lines 229, 282-283), go through `_save_as`; once a path is chosen they are the same record update, modelled as the `FileSavedAs` event. Reading and writing the note's text, the dialogs, an open that fails (no record change), Save and New on a note that already has a file, find, templates and `main` touch neither the overlay nor the record, and are not modelled.
- The close request's `root.destroy()` is modelled as a `closed` flag after which no event is delivered.
- An exception escaping an event handler is modelled only as the `Aborted` outcome: Tk reports it and the application keeps running. An exception in start-up ends the program before the window appears; `Overlay.Init` returns `Aborted` for it, and no event follows.

=== FILE: frame_inverse.dfy ===
/**
 * The converse of the tick's frame contract: every rectangle sequence of the
 * frame shape is the frame some draws of the random module produce. With the
 * tick's own contract this makes the shape an exact description of the
 * frames `_glitch_tick` can draw (DC404notes.py:386-417).
 */
module FrameInverse {
  import opened Themes
  import opened Shapes
  import opened Glitch

  /** A window of a well-formed sequence is well formed, unless it starts at a copy cut off from its base. */
  lemma PlacedSlice(w: int, h: int, colors: seq<Color>, rs: seq<Rect>, i: int, j: int)
    requires AllPlaced(w, h, colors, rs)
    requires 0 <= i <= j <= |rs|
    requires i < j ==> !IsCopy(rs[i].origin)
    ensures AllPlaced(w, h, colors, rs[i..j])
  {
    var sl := rs[i..j];
    forall k | 0 <= k < |sl|
      ensures Placed(w, h, colors, sl, k)
    {
      assert sl[k] == rs[i + k];
      assert Placed(w, h, colors, rs, i + k);
      if 0 < k {
        assert sl[k - 1] == rs[i + k - 1];
      }
    }
  }

  /** A window of a one-layer sequence stays in that layer. */
  lemma LayerSlice(rs: seq<Rect>, layer: nat, i: int)
    requires AllInLayer(rs, layer)
    requires 0 <= i <= |rs|
    ensures AllInLayer(rs[i..], layer)
  {
    forall k | 0 <= k < |rs| - i
      ensures Layer(rs[i..][k].origin) == layer
    {
      assert rs[i..][k] == rs[i + k];
    }
  }

  /** The position `random.choice` must have picked to yield x. */
  lemma IndexIn<T>(s: seq<T>, x: T) returns (i: nat)
    requires x in s
    ensures i < |s| && s[i] == x
  {
    var j :| 0 <= j < |s| && s[j] == x;
    i := j;
  }

  /** Dropping a well-formed prefix that does not leave a copy at the front keeps the rest well formed. */
  lemma RestPlaced(w: int, h: int, colors: seq<Color>, rs: seq<Rect>, layer: nat, cut: int)
    requires AllPlaced(w, h, colors, rs) && AllInLayer(rs, layer)
    requires 0 <= cut <= |rs|
    requires cut < |rs| ==> !IsCopy(rs[cut].origin)
    ensures AllPlaced(w, h, colors, rs[cut..]) && AllInLayer(rs[cut..], layer)
  {
    PlacedSlice(w, h, colors, rs, cut, |rs|);
    assert rs[cut..|rs|] == rs[cut..];
    LayerSlice(rs, layer, cut);
  }

  /** Recovers the first scanline draw of a run: one scanline, and its parallax copy when one follows. */
  lemma ScanHead(w: int, h: int, colors: seq<Color>, s: seq<Rect>) returns (head: ScanDraw, cut: nat)
    requires 0 < |s| && AllPlaced(w, h, colors, s) && AllInLayer(s, 0)
    ensures 1 <= cut <= 2 && cut <= |s|
    ensures ScanDrawFits(h, |colors|, head)
    ensures ScanPair(w, h, colors, head) == s[..cut]
    ensures Count(s[..cut], ScanLine) == 1
    ensures AllPlaced(w, h, colors, s[cut..]) && AllInLayer(s[cut..], 0)
  {
    assert Placed(w, h, colors, s, 0);
    var c := IndexIn(colors, s[0].fill);
    if |s| >= 2 && s[1].origin == Parallax {
      assert Placed(w, h, colors, s, 1);
      head, cut := ScanDraw(s[0].y0, Height(s[0]), c, true, s[1].x0 - s[0].x0), 2;
      CountTwo(s[0], s[1], ScanLine);
      assert s[..2] == [s[0], s[1]];
    } else {
      head, cut := ScanDraw(s[0].y0, Height(s[0]), c, false, 0), 1;
      CountOne(s[0], ScanLine);
      assert s[..1] == [s[0]];
    }
    if cut < |s| {
      assert Placed(w, h, colors, s, cut);
    }
    RestPlaced(w, h, colors, s, 0, cut);
  }

  /** Recovers the scanline draws behind a run of scanlines and parallax copies. */
  lemma {:induction false} DecodeScans(w: int, h: int, colors: seq<Color>, s: seq<Rect>)
    returns (scans: seq<ScanDraw>)
    requires AllPlaced(w, h, colors, s) && AllInLayer(s, 0)
    ensures forall i :: 0 <= i < |scans| ==> ScanDrawFits(h, |colors|, scans[i])
    ensures ScanRun(w, h, colors, scans) == s
    ensures |scans| == Count(s, ScanLine)
    decreases |s|
  {
    if |s| == 0 {
      return [];
    }
    var head, cut := ScanHead(w, h, colors, s);
    var rest := DecodeScans(w, h, colors, s[cut..]);
    scans := [head] + rest;
    assert scans[0] == head && scans[1..] == rest;
    assert s == s[..cut] + s[cut..];
    CountConcat(s[..cut], s[cut..], ScanLine);
  }

  /** Recovers the first block draw of a run: one block, and its chromatic split when one follows. */
  lemma BlockHead(w: int, h: int, colors: seq<Color>, b: seq<Rect>) returns (head: BlockDraw, cut: nat)
    requires 0 < |b| && AllPlaced(w, h, colors, b) && AllInLayer(b, 1)
    ensures 1 <= cut <= 2 && cut <= |b|
    ensures BlockDrawFits(w, h, |colors|, head) && !Oversized(w, head)
    ensures BlockPair(w, h, colors, head) == b[..cut]
    ensures Count(b[..cut], Block) == 1
    ensures AllPlaced(w, h, colors, b[cut..]) && AllInLayer(b[cut..], 1)
  {
    assert Placed(w, h, colors, b, 0);
    var c := IndexIn(colors, b[0].fill);
    if |b| >= 2 && b[1].origin == ChromaSplit {
      assert Placed(w, h, colors, b, 1);
      var dx := IndexIn(SplitDx, b[1].x0 - b[0].x0);
      var dy := IndexIn(SplitDy, b[1].y0 - b[0].y0);
      var sc := IndexIn(colors, b[1].fill);
      head, cut := BlockDraw(Width(b[0]), Height(b[0]), b[0].x0, b[0].y0, c, true, dx, dy, sc), 2;
      CountTwo(b[0], b[1], Block);
      assert b[..2] == [b[0], b[1]];
    } else {
      head, cut := BlockDraw(Width(b[0]), Height(b[0]), b[0].x0, b[0].y0, c, false, 0, 0, c), 1;
      CountOne(b[0], Block);
      assert b[..1] == [b[0]];
    }
    if cut < |b| {
      assert Placed(w, h, colors, b, cut);
    }
    RestPlaced(w, h, colors, b, 1, cut);
  }

  /** Recovers the block draws behind a run of blocks and chromatic-split copies. */
  lemma {:induction false} DecodeBlocks(w: int, h: int, colors: seq<Color>, b: seq<Rect>)
    returns (blocks: seq<BlockDraw>)
    requires AllPlaced(w, h, colors, b) && AllInLayer(b, 1)
    ensures forall i :: 0 <= i < |blocks| ==> BlockDrawFits(w, h, |colors|, blocks[i])
    ensures BlockLoop(w, h, colors, blocks) == BlockRun(b, false)
    ensures |blocks| == Count(b, Block)
    decreases |b|
  {
    if |b| == 0 {
      return [];
    }
    var head, cut := BlockHead(w, h, colors, b);
    var rest := DecodeBlocks(w, h, colors, b[cut..]);
    blocks := [head] + rest;
    assert blocks[0] == head && blocks[1..] == rest;
    assert b == b[..cut] + b[cut..];
    CountConcat(b[..cut], b[cut..], Block);
  }

  /** How many leading rectangles lie below a layer. */
  function LeadingBelow(rs: seq<Rect>, layer: nat): (n: nat)
    ensures n <= |rs|
    ensures forall k :: 0 <= k < n ==> Layer(rs[k].origin) < layer
    ensures n < |rs| ==> Layer(rs[n].origin) >= layer
  {
    if |rs| == 0 || Layer(rs[0].origin) >= layer then 0 else 1 + LeadingBelow(rs[1..], layer)
  }

  /** A sequence of one layer only counts rectangles of that layer. */
  lemma CountInLayer(rs: seq<Rect>, layer: nat)
    requires AllInLayer(rs, layer)
    ensures layer == 2 ==> Count(rs, Flash) == |rs|
    ensures layer == 0 ==> Count(rs, Block) == 0 && Count(rs, Flash) == 0
    ensures layer == 1 ==> Count(rs, ScanLine) == 0 && Count(rs, Flash) == 0
    ensures layer == 2 ==> Count(rs, ScanLine) == 0 && Count(rs, Block) == 0
  {
    CountTotal(rs);
    if layer != 0 {
      CountOffLayer(rs, layer, ScanLine);
      CountOffLayer(rs, layer, Parallax);
    }
    if layer != 1 {
      CountOffLayer(rs, layer, Block);
      CountOffLayer(rs, layer, ChromaSplit);
    }
    if layer != 2 {
      CountOffLayer(rs, layer, Flash);
    }
  }

  /** In a layer-sorted sequence, everything from the first rectangle at or above a layer on stays at or above it. */
  lemma SortedTail(rs: seq<Rect>, i: nat, layer: nat)
    requires LayerSorted(rs)
    requires i < |rs| && Layer(rs[i].origin) >= layer
    ensures forall k :: i <= k < |rs| ==> Layer(rs[k].origin) >= layer
  {
    forall k | i <= k < |rs|
      ensures Layer(rs[k].origin) >= layer
    {
      if i < k {
        assert Layer(rs[i].origin) <= Layer(rs[k].origin);
      }
    }
  }

  /** The cut points between a layer-sorted frame's three layers. */
  lemma LayerCuts(rs: seq<Rect>) returns (i1: nat, i2: nat)
    requires LayerSorted(rs)
    ensures i1 <= i2 <= |rs|
    ensures forall k :: 0 <= k < i1 ==> Layer(rs[k].origin) == 0
    ensures forall k :: i1 <= k < i2 ==> Layer(rs[k].origin) == 1
    ensures forall k :: i2 <= k < |rs| ==> Layer(rs[k].origin) == 2
  {
    i1 := LeadingBelow(rs, 1);
    i2 := LeadingBelow(rs, 2);
    if i1 < |rs| {
      SortedTail(rs, i1, 1);
    }
    if i2 < |rs| {
      SortedTail(rs, i2, 2);
    }
  }

  /** A layer-sorted frame falls into a scanline section, a block section and a flash section, each well formed. */
  lemma SplitLayers(w: int, h: int, colors: seq<Color>, rs: seq<Rect>) returns (i1: nat, i2: nat)
    requires AllPlaced(w, h, colors, rs) && LayerSorted(rs)
    ensures i1 <= i2 <= |rs|
    ensures rs == rs[..i1] + rs[i1..i2] + rs[i2..]
    ensures AllPlaced(w, h, colors, rs[..i1]) && AllInLayer(rs[..i1], 0)
    ensures AllPlaced(w, h, colors, rs[i1..i2]) && AllInLayer(rs[i1..i2], 1)
    ensures AllPlaced(w, h, colors, rs[i2..]) && AllInLayer(rs[i2..], 2)
  {
    i1, i2 := LayerCuts(rs);
    assert rs == rs[..i1] + rs[i1..i2] + rs[i2..];
    assert AllInLayer(rs[..i1], 0);
    assert AllInLayer(rs[i1..i2], 1);
    assert AllInLayer(rs[i2..], 2);
    if 0 < i1 {
      assert Placed(w, h, colors, rs, 0);
    }
    if i1 < i2 {
      assert Placed(w, h, colors, rs, i1);
    }
    if i2 < |rs| {
      assert Placed(w, h, colors, rs, i2);
    }
    PlacedSlice(w, h, colors, rs, 0, i1);
    PlacedSlice(w, h, colors, rs, i1, i2);
    PlacedSlice(w, h, colors, rs, i2, |rs|);
    assert rs[0..i1] == rs[..i1] && rs[i2..|rs|] == rs[i2..];
  }

  /** The frame's counts are the sections' counts. */
  lemma SectionCounts(s: seq<Rect>, b: seq<Rect>, f: seq<Rect>)
    requires AllInLayer(s, 0) && AllInLayer(b, 1) && AllInLayer(f, 2)
    ensures Count(s + b + f, ScanLine) == Count(s, ScanLine)
    ensures Count(s + b + f, Block) == Count(b, Block)
    ensures Count(s + b + f, Flash) == |f|
  {
    CountInLayer(s, 0);
    CountInLayer(b, 1);
    CountInLayer(f, 2);
    CountConcat(s + b, f, ScanLine);
    CountConcat(s, b, ScanLine);
    CountConcat(s + b, f, Block);
    CountConcat(s, b, Block);
    CountConcat(s + b, f, Flash);
    CountConcat(s, b, Flash);
  }

  /** Every frame of the frame shape is drawn by some draws that fit. */
  lemma DecodeFrame(w: int, h: int, colors: seq<Color>, rs: seq<Rect>) returns (d: Draws)
    requires !Degenerate(w, h)
    requires FrameShape(w, h, colors, rs)
    ensures DrawsFit(w, h, |colors|, d)
    ensures Render(w, h, colors, d) == Drawn(rs)
  {
    var i1, i2 := SplitLayers(w, h, colors, rs);
    var s, b, f := rs[..i1], rs[i1..i2], rs[i2..];
    SectionCounts(s, b, f);
    var scans := DecodeScans(w, h, colors, s);
    var blocks := DecodeBlocks(w, h, colors, b);
    assert Placed(w, h, colors, rs, 0);
    var fc := 0;
    if |f| == 1 {
      assert Placed(w, h, colors, f, 0);
      fc := IndexIn(colors, f[0].fill);
    }
    d := Draws(scans, blocks, |f| == 1, fc);
    assert FlashRun(w, h, colors, d) == f;
  }

  /**
   * The frame shape describes exactly what a tick on a laid-out canvas can
   * draw: each frame a tick draws has the shape, and each sequence with the
   * shape is drawn by some draws.
   */
  lemma FrameShapeIsExact(w: int, h: int, colors: seq<Color>, rs: seq<Rect>)
    requires !Degenerate(w, h)
    ensures FrameShape(w, h, colors, rs) <==>
            exists d :: DrawsFit(w, h, |colors|, d) && Render(w, h, colors, d) == Drawn(rs)
  {
    if FrameShape(w, h, colors, rs) {
      var d := DecodeFrame(w, h, colors, rs);
    }
  }
}

=== FILE: glitch.dfy ===
/**
 * One tick of the glitch overlay (DC404notes.py:377-417) as a pure function.
 * The `random` module is replaced by its results, passed in: every `randint`
 * result and `choice` index, and every `random() < p` comparison as a boolean.
 */
module Glitch {
  import opened Session
  import opened Themes
  import opened Shapes

  /**
   * The draws for one scanline, in the order the source makes them. `offset` is
   * read only when `parallax` holds, as the source draws it only then; it is
   * still kept in range so that every draw has a value.
   */
  datatype ScanDraw = ScanDraw(y: int, height: int, color: nat, parallax: bool, offset: int)

  /**
   * The draws for one block. `x` and everything after it are drawn only when
   * the x range is non-empty; `dx`/`dy` index the fixed split offsets.
   */
  datatype BlockDraw = BlockDraw(
    bw: int, bh: int, x: int, y: int, color: nat,
    split: bool, dx: nat, dy: nat, splitColor: nat)

  /** Everything one tick draws: the two loop counts are the lengths of the sequences. */
  datatype Draws = Draws(scans: seq<ScanDraw>, blocks: seq<BlockDraw>, flash: bool, flashColor: nat)

  /** The canvas is not laid out yet: the tick does nothing at all. */
  predicate Degenerate(w: int, h: int)
  {
    w <= 2 || h <= 2
  }

  /** Every scanline draw lies in the range its `randint` or `choice` call allows. */
  predicate ScanDrawFits(h: int, colorCount: nat, s: ScanDraw)
  {
    && 0 <= s.y <= Max(1, h - 2)
    && 1 <= s.height <= 3
    && s.color < colorCount
    && -6 <= s.offset <= 6
  }

  /**
   * `random.randint(-10, w - bw + 10)` has an empty range, so it raises
   * ValueError instead of returning.
   */
  predicate Oversized(w: int, b: BlockDraw)
    ensures Oversized(w, b) <==> b.bw > w + 20
    ensures Oversized(w, b) && WidthAllowed(w, b.bw) ==> w < 30
  {
    XRangeEmpty(w, b.bw)
  }

  predicate XRangeEmpty(w: int, bw: int)
  {
    w - bw + 10 < -10
  }

  predicate WidthAllowed(w: int, bw: int)
  {
    BlockWidthMin(w) <= bw <= BlockWidthMax(w)
  }

  predicate BlockDrawFits(w: int, h: int, colorCount: nat, b: BlockDraw)
  {
    && WidthAllowed(w, b.bw)
    && 8 <= b.bh <= 24
    && (!Oversized(w, b) ==>
          && -10 <= b.x <= w - b.bw + 10
          && 0 <= b.y <= Max(1, h - b.bh)
          && b.color < colorCount
          && b.dx < |SplitDx| && b.dy < |SplitDy|
          && b.splitColor < colorCount)
  }

  /** The draws the random module can produce for a w by h canvas and this many colours. */
  predicate DrawsFit(w: int, h: int, colorCount: nat, d: Draws)
    ensures DrawsFit(w, h, colorCount, d) ==> 0 < colorCount
    ensures DrawsFit(w, h, colorCount, d) && w >= 30 ==>
              forall i :: 0 <= i < |d.blocks| ==> !Oversized(w, d.blocks[i])
    ensures DrawsFit(w, h, colorCount, d) ==>
              forall i :: 0 <= i < |d.blocks| && !Oversized(w, d.blocks[i]) ==>
                -10 <= d.blocks[i].x && d.blocks[i].x + d.blocks[i].bw <= w + 10
  {
    && 6 <= |d.scans| <= 12
    && 2 <= |d.blocks| <= 5
    && (forall i :: 0 <= i < |d.scans| ==> ScanDrawFits(h, colorCount, d.scans[i]))
    && (forall i :: 0 <= i < |d.blocks| ==> BlockDrawFits(w, h, colorCount, d.blocks[i]))
    && d.flashColor < colorCount
  }

  /** One scanline and, when the coin says so, its parallax copy. */
  function ScanPair(w: int, h: int, colors: seq<Color>, s: ScanDraw): (rs: seq<Rect>)
    requires ScanDrawFits(h, |colors|, s)
    ensures 1 <= |rs| <= 2 && rs[0].origin == ScanLine
    ensures StippleOf(rs[0].origin) == Gray50
    ensures |rs| == 2 ==> rs[1].origin == Parallax && StippleOf(rs[1].origin) == Gray25
    ensures Count(rs, ScanLine) == 1
    ensures AllPlaced(w, h, colors, rs) && AllInLayer(rs, 0)
  {
    var base := Rect(0, s.y, w, s.y + s.height, colors[s.color], ScanLine);
    if s.parallax then
      var copy := Rect(base.x0 + s.offset, s.y + 1, base.x1 + s.offset, s.y + s.height + 1, base.fill, Parallax);
      CountTwo(base, copy, ScanLine);
      assert Placed(w, h, colors, [base, copy], 0);
      assert Placed(w, h, colors, [base, copy], 1);
      [base, copy]
    else
      CountOne(base, ScanLine);
      assert Placed(w, h, colors, [base], 0);
      [base]
  }

  /** Gluing a pair in front of a run keeps placement, layer and counts. */
  lemma Prepend(w: int, h: int, colors: seq<Color>, pair: seq<Rect>, rest: seq<Rect>, layer: nat)
    requires AllPlaced(w, h, colors, pair) && AllInLayer(pair, layer)
    requires AllPlaced(w, h, colors, rest) && AllInLayer(rest, layer)
    requires |rest| > 0 ==> !IsCopy(rest[0].origin)
    ensures AllPlaced(w, h, colors, pair + rest) && AllInLayer(pair + rest, layer)
  {
    PlacedConcat(w, h, colors, pair, rest);
    var all := pair + rest;
    forall k | 0 <= k < |all|
      ensures Layer(all[k].origin) == layer
    {
      if k < |pair| {
        assert all[k] == pair[k];
      } else {
        assert all[k] == rest[k - |pair|];
      }
    }
  }

  /** The scanline loop: one pair per draw, in draw order. */
  function ScanRun(w: int, h: int, colors: seq<Color>, scans: seq<ScanDraw>): (rs: seq<Rect>)
    requires forall i :: 0 <= i < |scans| ==> ScanDrawFits(h, |colors|, scans[i])
    ensures |scans| <= |rs| <= 2 * |scans|
    ensures Count(rs, ScanLine) == |scans|
    ensures AllPlaced(w, h, colors, rs)
    ensures AllInLayer(rs, 0)
    ensures |rs| > 0 ==> rs[0].origin == ScanLine
    decreases |scans|
  {
    if |scans| == 0 then
      []
    else
      assert ScanDrawFits(h, |colors|, scans[0]);
      var pair := ScanPair(w, h, colors, scans[0]);
      var rest := ScanRun(w, h, colors, scans[1..]);
      Prepend(w, h, colors, pair, rest, 0);
      CountConcat(pair, rest, ScanLine);
      pair + rest
  }

  /** One block and, when the coin says so, its chromatic-split copy. */
  function BlockPair(w: int, h: int, colors: seq<Color>, b: BlockDraw): (rs: seq<Rect>)
    requires BlockDrawFits(w, h, |colors|, b) && !Oversized(w, b)
    ensures 1 <= |rs| <= 2 && rs[0].origin == Block
    ensures StippleOf(rs[0].origin) == Gray25
    ensures |rs| == 2 ==> rs[1].origin == ChromaSplit && StippleOf(rs[1].origin) == Gray50
    ensures Count(rs, Block) == 1
    ensures AllPlaced(w, h, colors, rs) && AllInLayer(rs, 1)
  {
    var base := Rect(b.x, b.y, b.x + b.bw, b.y + b.bh, colors[b.color], Block);
    if b.split then
      var ox := SplitDx[b.dx];
      var oy := SplitDy[b.dy];
      var copy := Rect(b.x + ox, b.y + oy, b.x + b.bw + ox, b.y + b.bh + oy, colors[b.splitColor], ChromaSplit);
      CountTwo(base, copy, Block);
      assert Placed(w, h, colors, [base, copy], 0);
      assert Placed(w, h, colors, [base, copy], 1);
      [base, copy]
    else
      CountOne(base, Block);
      assert Placed(w, h, colors, [base], 0);
      [base]
  }

  /** The rectangles the block loop drew, and whether it stopped on an empty x range. */
  datatype BlockRun = BlockRun(rects: seq<Rect>, raised: bool)

  /**
   * The block loop. It draws every block when no width draw is oversized;
   * otherwise it stops at the first oversized one, having drawn exactly the
   * blocks before it.
   */
  function BlockLoop(w: int, h: int, colors: seq<Color>, blocks: seq<BlockDraw>): (r: BlockRun)
    requires forall i :: 0 <= i < |blocks| ==> BlockDrawFits(w, h, |colors|, blocks[i])
    ensures Count(r.rects, Block) <= |r.rects| <= 2 * Count(r.rects, Block)
    ensures AllPlaced(w, h, colors, r.rects)
    ensures AllInLayer(r.rects, 1)
    ensures |r.rects| > 0 ==> r.rects[0].origin == Block
    ensures !r.raised ==> Count(r.rects, Block) == |blocks|
    ensures !r.raised ==> forall i :: 0 <= i < |blocks| ==> !Oversized(w, blocks[i])
    ensures r.raised ==> var n := Count(r.rects, Block);
      && n < |blocks|
      && Oversized(w, blocks[n])
      && forall i :: 0 <= i < n ==> !Oversized(w, blocks[i])
    decreases |blocks|
  {
    if |blocks| == 0 then
      BlockRun([], false)
    else if Oversized(w, blocks[0]) then
      BlockRun([], true)
    else
      assert BlockDrawFits(w, h, |colors|, blocks[0]);
      var pair := BlockPair(w, h, colors, blocks[0]);
      var rest := BlockLoop(w, h, colors, blocks[1..]);
      Prepend(w, h, colors, pair, rest.rects, 1);
      CountConcat(pair, rest.rects, Block);
      BlockRun(pair + rest.rects, rest.raised)
  }

  /** What one tick did to the canvas. */
  datatype Tick =
    | Skipped                  // returned before clearing: the canvas keeps its items
    | Drawn(rects: seq<Rect>)  // cleared, then drew this frame
    | Raised(rects: seq<Rect>) // cleared, drew these, then `randint` raised ValueError

  /** The frame for a laid-out canvas and a colour list. */
  function Render(w: int, h: int, colors: seq<Color>, d: Draws): (r: Tick)
    requires !Degenerate(w, h)
    requires DrawsFit(w, h, |colors|, d)
    ensures !r.Skipped?
    ensures r.Raised? <==> exists i :: 0 <= i < |d.blocks| && Oversized(w, d.blocks[i])
    ensures r.Drawn? ==> FrameShape(w, h, colors, r.rects)
    ensures r.Drawn? ==> Count(r.rects, ScanLine) == |d.scans| && Count(r.rects, Block) == |d.blocks|
    ensures r.Drawn? ==> (Count(r.rects, Flash) == 1 <==> d.flash)
    ensures r.Raised? ==> AllPlaced(w, h, colors, r.rects) && LayerSorted(r.rects)
    ensures r.Raised? ==> Count(r.rects, ScanLine) == |d.scans| && Count(r.rects, Block) < |d.blocks|
    ensures r.Raised? ==> Count(r.rects, Flash) == 0
  {
    var scans := ScanRun(w, h, colors, d.scans);
    var blocks := BlockLoop(w, h, colors, d.blocks);
    var flash := FlashRun(w, h, colors, d);
    Assemble(w, h, colors, scans, blocks.rects, flash);
    if blocks.raised then
      Raised(scans + blocks.rects)
    else
      Drawn(scans + blocks.rects + flash)
  }

  /** The occasional full-canvas flash: none, or one rectangle. */
  function FlashRun(w: int, h: int, colors: seq<Color>, d: Draws): (rs: seq<Rect>)
    requires d.flashColor < |colors|
    ensures AllPlaced(w, h, colors, rs) && AllInLayer(rs, 2)
    ensures |rs| > 0 ==> rs[0].origin == Flash && StippleOf(rs[0].origin) == Gray12
    ensures Count(rs, Flash) == |rs|
    ensures |rs| == 1 <==> d.flash
    ensures |rs| <= 1
  {
    if d.flash then
      var flash := Rect(0, 0, w, h, colors[d.flashColor], Flash);
      CountOne(flash, Flash);
      assert Placed(w, h, colors, [flash], 0);
      [flash]
    else
      []
  }

  /** Gluing the three runs of a frame together keeps every rectangle's placement and counts. */
  lemma Assemble(w: int, h: int, colors: seq<Color>, s: seq<Rect>, b: seq<Rect>, f: seq<Rect>)
    requires AllPlaced(w, h, colors, s) && AllInLayer(s, 0)
    requires AllPlaced(w, h, colors, b) && AllInLayer(b, 1) && (|b| > 0 ==> b[0].origin == Block)
    requires AllPlaced(w, h, colors, f) && AllInLayer(f, 2) && (|f| > 0 ==> f[0].origin == Flash)
    ensures AllPlaced(w, h, colors, s + b) && LayerSorted(s + b)
    ensures AllPlaced(w, h, colors, s + b + f) && LayerSorted(s + b + f)
    ensures Count(s + b, ScanLine) == Count(s + b + f, ScanLine) == Count(s, ScanLine)
    ensures Count(s + b, Block) == Count(s + b + f, Block) == Count(b, Block)
    ensures Count(s + b, Flash) == 0 && Count(s + b + f, Flash) == Count(f, Flash)
  {
    PlacedConcat(w, h, colors, s, b);
    PlacedConcat(w, h, colors, s + b, f);
    LayersConcat(s, b, f);
    forall o | o in {ScanLine, Block, Flash}
      ensures Count(s + b, o) == Count(s, o) + Count(b, o)
      ensures Count(s + b + f, o) == Count(s, o) + Count(b, o) + Count(f, o)
    {
      CountConcat(s, b, o);
      CountConcat(s + b, f, o);
    }
    CountOffLayer(s, 0, Block);
    CountOffLayer(s, 0, Flash);
    CountOffLayer(b, 1, ScanLine);
    CountOffLayer(b, 1, Flash);
    CountOffLayer(f, 2, ScanLine);
    CountOffLayer(f, 2, Block);
  }

  /** The colours a tick samples: those of the theme the session record names, "Dark" when absent. */
  function TickColors(state: StateMap): (colors: seq<Color>)
    ensures 3 <= |colors| <= 4
    ensures ThemeKey !in state ==> colors == DarkPalette.glitchColors
    ensures ThemeKey in state && state[ThemeKey] == Str("Light") ==> colors == LightPalette.glitchColors
    ensures ThemeKey in state && state[ThemeKey] == Str("Dark Glitch") ==> colors == DarkGlitchPalette.glitchColors
    ensures ThemeKey in state && state[ThemeKey] != Str("Light") && state[ThemeKey] != Str("Dark Glitch") ==>
              colors == DarkPalette.glitchColors
  {
    ResolveValue(Get(state, ThemeKey, Str(DefaultTheme))).glitchColors
  }

  /**
   * `_glitch_tick`. A canvas of at most two pixels in either direction is
   * left untouched; otherwise the tick clears the canvas and draws a frame
   * of 8 to 35 rectangles, or raises partway through, which can only happen
   * on a canvas narrower than 30 pixels.
   */
  function GlitchTick(state: StateMap, w: int, h: int, d: Draws): (r: Tick)
    requires Degenerate(w, h) || DrawsFit(w, h, |TickColors(state)|, d)
    ensures r.Skipped? <==> Degenerate(w, h)
    ensures r.Drawn? ==> FrameShape(w, h, TickColors(state), r.rects)
    ensures r.Drawn? ==> 8 <= |r.rects| <= 35
    ensures r.Raised? ==> 3 <= w < 30
    ensures r.Raised? ==> AllPlaced(w, h, TickColors(state), r.rects) && 6 <= |r.rects|
  {
    if Degenerate(w, h) then
      Skipped
    else
      var r := Render(w, h, TickColors(state), d);
      if r.Drawn? then
        FrameSize(w, h, TickColors(state), r.rects);
        r
      else
        assert 6 <= |r.rects| by {
          CountTotal(r.rects);
        }
        r
  }
}

=== FILE: glitch_facts.dfy ===
/**
 * Facts about one tick's integer ranges (DC404notes.py:382-417): which
 * `randint` ranges can be empty, and on which canvases that makes a tick
 * raise.
 */
module GlitchFacts {
  import opened Session
  import opened Themes
  import opened Shapes
  import opened Glitch

  /** The block-width range is never empty, whatever the canvas width. */
  lemma WidthRangeNonEmpty(w: int)
    ensures BlockWidthMin(w) <= BlockWidthMax(w)
  {
    if w / 10 > 20 {
      assert w >= 210;
      assert w / 4 >= w / 10;
    }
  }

  /**
   * The x range `[-10, w - bw + 10]` is empty for some allowed block width
   * exactly when the canvas is narrower than 30 pixels.
   */
  lemma WidthCanOverflowIffNarrow(w: int)
    ensures (exists bw :: WidthAllowed(w, bw) && XRangeEmpty(w, bw)) <==> w < 30
  {
    WidthRangeNonEmpty(w);
    if w < 30 {
      assert WidthAllowed(w, 50) && XRangeEmpty(w, 50);
    } else {
      assert BlockWidthMax(w) <= w + 20 by {
        assert w / 4 <= w;
      }
    }
  }

  /** Draws that reach the empty range on the first block: the widest block a narrow canvas allows. */
  function OversizeDraws(): Draws
  {
    Draws(seq(6, _ => ScanDraw(0, 1, 0, false, 0)),
          seq(2, _ => BlockDraw(50, 8, 0, 0, 0, false, 0, 0, 0)),
          false, 0)
  }

  /**
   * On every canvas 3 to 29 pixels wide some draws the random module can make
   * raise ValueError in the block loop; together with the tick's own contract
   * (a raise needs such a width) this makes the width window exact.
   */
  lemma NarrowCanvasCanRaise(state: StateMap, w: int, h: int)
    requires 3 <= w < 30 && h > 2
    ensures DrawsFit(w, h, |TickColors(state)|, OversizeDraws())
    ensures GlitchTick(state, w, h, OversizeDraws()).Raised?
  {
    var d := OversizeDraws();
    assert BlockWidthMax(w) == 50 && BlockWidthMin(w) == 20;
    assert forall i :: 0 <= i < |d.blocks| ==> Oversized(w, d.blocks[i]);
    assert Oversized(w, d.blocks[0]);
  }

  /**
   * An 800 by 600 canvas with the "Dark" theme: every tick draws a full frame
   * of 6 to 12 scanlines in Dark's colours, and none raises.
   */
  lemma DarkThemeLargeCanvas(state: StateMap, d: Draws)
    requires Get(state, ThemeKey, Str(DefaultTheme)) == Str("Dark")
    requires DrawsFit(800, 600, 3, d)
    ensures GlitchTick(state, 800, 600, d).Drawn?
    ensures var rs := GlitchTick(state, 800, 600, d).rects;
            && 6 <= Count(rs, ScanLine) <= 12
            && forall k :: 0 <= k < |rs| ==> rs[k].fill in ["#ff2d55", "#00e5ff", "#ffd400"]
  {
    var rs := GlitchTick(state, 800, 600, d).rects;
    forall k | 0 <= k < |rs|
      ensures rs[k].fill in ["#ff2d55", "#00e5ff", "#ffd400"]
    {
      assert Placed(800, 600, TickColors(state), rs, k);
    }
  }
}

=== FILE: lifecycle.dfy ===
/**
 * The editor as Tk's event loop drives it: the events that reach the overlay
 * and the session record, one step per event, and the facts every reachable
 * state keeps. Also the ways the code as written departs from a strict
 * start/stop discipline when `_start_glitch` is called directly.
 */
module Lifecycle {
  import opened Session
  import opened Themes
  import opened Shapes
  import opened Glitch
  import opened Overlay

  /** What the event loop can deliver to the parts of the editor modelled here. */
  datatype Event =
    | TimerFired(hd: Handle, t: TickInput)  // an armed `after` callback runs
    | GlitchClicked(t: TickInput)           // View > Glitch Overlay: the checkbox flips, then `_toggle_glitch`
    | WrapClicked                           // Edit > Wrap Lines: the checkbox flips, then `_toggle_wrap`
    | ThemeChosen(name: string)             // View > Theme: a radio item, then `_on_theme_change`
    | FileOpened(path: string)              // File > Open: `_open_path` read the file
    | FileSavedAs(path: string)             // `_save_as` once a path is chosen: File > Save As, or Save/New on an untitled note
    | CloseRequested(geometry: string)      // window close, Ctrl+Q or File > Exit: `_on_close`

  /** The event can occur: the window is open, a firing timer is armed, theme items carry theme names. */
  predicate Enabled(a: App, e: Event)
  {
    && !a.closed
    && match e
       case TimerFired(hd, t) => hd in a.timers && Supplies(a.state, t)
       case GlitchClicked(t) => Supplies(a.state, t)
       case WrapClicked => true
       case ThemeChosen(name) => name in Registry
       case FileOpened(_) => true
       case FileSavedAs(_) => true
       case CloseRequested(_) => true
  }

  /**
   * One event through its handler. A menu checkbutton flips its variable
   * before its command runs; a theme item passes its own name; only the events
   * that run a tick can abort.
   */
  function Dispatch(a: App, e: Event): (r: Step)
    requires Enabled(a, e)
    ensures r.Aborted? ==> e.TimerFired? || e.GlitchClicked?
    ensures e.GlitchClicked? ==>
              r.app.glitchVar == !a.glitchVar && GlitchOnKey in r.app.state && r.app.state[GlitchOnKey] == Bool(!a.glitchVar)
    ensures e.GlitchClicked? ==> (r.app.lifted <==> !a.glitchVar)
    ensures e.WrapClicked? ==> r.app.wrapVar == !a.wrapVar && WrapKey in r.app.state && r.app.state[WrapKey] == Bool(!a.wrapVar)
    ensures !e.GlitchClicked? ==> r.app.glitchVar == a.glitchVar
    ensures !e.WrapClicked? ==> r.app.wrapVar == a.wrapVar
    ensures e.ThemeChosen? ==> ThemeKey in r.app.state && r.app.state[ThemeKey] == Str(e.name)
    ensures e.ThemeChosen? ==> TickColors(r.app.state) == Registry[e.name].glitchColors
    ensures e.FileOpened? || e.FileSavedAs? ==>
              LastFileKey in r.app.state && r.app.state[LastFileKey] == Str(e.path)
    ensures e.TimerFired? ==> r.app.state == a.state
    ensures r.app.closed <==> e.CloseRequested?
  {
    match e
    case TimerFired(hd, t) => Fire(a, hd, t)
    case GlitchClicked(t) => ToggleGlitch(a.(glitchVar := !a.glitchVar), t)
    case WrapClicked => Completed(ToggleWrap(a.(wrapVar := !a.wrapVar)))
    case ThemeChosen(name) => Completed(ApplyTheme(a, Str(name)))
    case FileOpened(path) => Completed(RememberFile(a, path))
    case FileSavedAs(path) => Completed(RememberFile(a, path))
    case CloseRequested(g) => Completed(Close(a, g))
  }

  /** Every event in turn can occur. */
  predicate RunEnabled(a: App, es: seq<Event>)
    decreases |es|
  {
    |es| == 0 || (Enabled(a, es[0]) && RunEnabled(Dispatch(a, es[0]).app, es[1..]))
  }

  /**
   * The app after the events, in order. An event whose handler raised still
   * leaves its effects: Tk reports the exception and the loop goes on.
   */
  function Run(a: App, es: seq<Event>): App
    requires RunEnabled(a, es)
    decreases |es|
  {
    if |es| == 0 then a else Run(Dispatch(a, es[0]).app, es[1..])
  }

  /**
   * What holds in every state the event loop can reach: handles are fresh,
   * the saved record is the in-memory one, at most the current job is armed
   * and only while the checkbox is on, and the record's "wrap", "theme" and
   * "glitch_on" agree with the widgets.
   */
  ghost predicate Good(a: App)
  {
    && HandlesIssued(a)
    && Persisted(a)
    && SingleChain(a)
    && (Animating(a) ==> a.glitchVar)
    && (!a.closed ==> (a.lifted <==> a.glitchVar))
    && WrapKey in a.state && a.state[WrapKey] == Bool(a.wrapVar)
    && ThemeKey in a.state
    && Truthy(Get(a.state, GlitchOnKey, Bool(false))) == a.glitchVar
  }

  /** The editor starts in a good state. */
  lemma InitIsGood(d: Disk, t: TickInput)
    requires Supplies(InitialState(d), t)
    requires Init(d, t).Completed?
    ensures Good(Init(d, t).app)
  {
  }

  /** A single event keeps the state good. */
  lemma DispatchKeepsGood(a: App, e: Event)
    requires Good(a) && Enabled(a, e)
    ensures Good(Dispatch(a, e).app)
  {
    match e
    case TimerFired(hd, t) => FireKeepsGood(a, hd, t);
    case GlitchClicked(t) => GlitchClickKeepsGood(a, t);
    case WrapClicked =>
    case ThemeChosen(name) =>
    case FileOpened(path) =>
    case FileSavedAs(path) =>
    case CloseRequested(g) =>
  }

  /** The armed callback of a good state is the job, and firing it keeps the state good. */
  lemma FireKeepsGood(a: App, hd: Handle, t: TickInput)
    requires Good(a) && !a.closed && hd in a.timers && Supplies(a.state, t)
    ensures Good(Fire(a, hd, t).app)
  {
    assert a.job == Some(hd);
  }

  /** Flipping the overlay checkbox keeps the state good. */
  lemma GlitchClickKeepsGood(a: App, t: TickInput)
    requires Good(a) && !a.closed && Supplies(a.state, t)
    ensures Good(ToggleGlitch(a.(glitchVar := !a.glitchVar), t).app)
  {
    if !a.glitchVar {
      IdleChainIsEmpty(a);
    }
  }

  /** Any sequence of events keeps the state good. */
  lemma {:induction false} RunKeepsGood(a: App, es: seq<Event>)
    requires Good(a) && RunEnabled(a, es)
    ensures Good(Run(a, es))
    decreases |es|
  {
    if |es| > 0 {
      DispatchKeepsGood(a, es[0]);
      RunKeepsGood(Dispatch(a, es[0]).app, es[1..]);
    }
  }

  /** In a good state at most one tick is ever armed. */
  lemma GoodHasOneTimerAtMost(a: App)
    requires Good(a)
    ensures |a.timers| <= 1
    ensures a.timers != map[] ==> Animating(a)
  {
    if a.timers != map[] {
      var hd :| hd in a.timers;
      assert a.timers.Keys == {hd} by {
        forall k | k in a.timers
          ensures k == hd
        {
          assert a.job == Some(k) && a.job == Some(hd);
        }
      }
      assert |a.timers| == |a.timers.Keys| == 1;
    }
  }

  /** A single chain that is not animating has nothing armed at all. */
  lemma IdleChainIsEmpty(a: App)
    requires SingleChain(a) && !Animating(a)
    ensures a.timers == map[]
  {
  }

  /** With the checkbox off nothing is armed, so a stale tick cannot arrive after a stop. */
  lemma UncheckedMeansNoTimer(a: App)
    requires Good(a) && !a.glitchVar
    ensures a.timers == map[]
  {
    if a.timers != map[] {
      GoodHasOneTimerAtMost(a);
    }
  }

  /** Whatever the user does after start-up, at most one tick is armed. */
  lemma ReachableStatesHaveOneTimerAtMost(d: Disk, t: TickInput, es: seq<Event>)
    requires Supplies(InitialState(d), t)
    requires Init(d, t).Completed?
    requires RunEnabled(Init(d, t).app, es)
    ensures |Run(Init(d, t).app, es).timers| <= 1
    ensures Persisted(Run(Init(d, t).app, es))
  {
    InitIsGood(d, t);
    RunKeepsGood(Init(d, t).app, es);
    GoodHasOneTimerAtMost(Run(Init(d, t).app, es));
  }

  /**
   * Restarting from what was saved rebuilds the same record and the same
   * checkbox settings: the session round-trips through the state file.
   */
  lemma RestartRestoresSession(a: App, t: TickInput)
    requires Good(a)
    ensures InitialState(a.saved) == a.state
    ensures Supplies(a.state, t) ==> Init(a.saved, t).app.wrapVar == a.wrapVar
    ensures Supplies(a.state, t) ==> Init(a.saved, t).app.glitchVar == a.glitchVar
  {
    var s := InitialState(a.saved);
    assert Load(a.saved) == a.state;
    assert s.Keys == a.state.Keys;
    forall k | k in s
      ensures s[k] == a.state[k]
    {
    }
  }

  /** With no readable state file the editor starts with wrap on, the "Dark" theme, and no overlay. */
  lemma FreshStartDefaults(d: Disk, t: TickInput)
    requires !d.Document?
    ensures Supplies(InitialState(d), t) ==> Init(d, t).Completed?
    ensures InitialState(d) == map[WrapKey := Bool(true), ThemeKey := Str(DefaultTheme)]
    ensures Supplies(InitialState(d), t) ==>
      var a := Init(d, t).app;
      && a.wrapVar && !a.glitchVar && !a.lifted && a.job == None && a.timers == map[] && a.items == []
      && a.saved == Document(map[WrapKey := Bool(true), ThemeKey := Str(DefaultTheme)])
  {
    var s := InitialState(d);
    assert s.Keys == {WrapKey, ThemeKey};
  }

  /**
   * `_start_glitch` is not idempotent: a second call arms a second tick and
   * overwrites the job handle, and a stop then cancels only the second, so the
   * first chain keeps running.
   */
  lemma StartTwiceLeavesOrphanTick(a: App, t1: TickInput, t2: TickInput)
    requires HandlesIssued(a)
    requires Supplies(a.state, t1) && Supplies(a.state, t2)
    requires Start(a, t1).Completed?
    requires Start(Start(a, t1).app, t2).Completed?
    ensures var first := Start(a, t1).app;
            var second := Start(first, t2).app;
            && first.job.value in second.timers
            && second.job.value in second.timers
            && first.job != second.job
            && !SingleChain(second)
            && first.job.value in Stop(second).timers
  {
    var first := Start(a, t1).app;
    var second := Start(first, t2).app;
    assert second.job == Some(first.nextHandle);
  }

  /**
   * The callback does not check whether the overlay is running: a tick that is
   * still armed after a stop draws a full frame under the lowered overlay and
   * arms the next one.
   */
  lemma OrphanTickKeepsDrawing(a: App, hd: Handle, t: TickInput)
    requires !a.closed && hd in a.timers
    requires a.job == None && !a.lifted
    requires t.w >= 30 && t.h > 2
    requires Supplies(a.state, t)
    ensures Fire(a, hd, t).Completed?
    ensures var r := Fire(a, hd, t).app;
            && Animating(r) && !r.lifted
            && 8 <= |r.items| <= 35
  {
    var r := Fire(a, hd, t);
    FrameSize(t.w, t.h, TickColors(a.state), r.app.items);
  }

  /** The first frame is drawn at once, inside `_start_glitch`, not 80 ms later. */
  lemma StartDrawsImmediately(a: App, t: TickInput)
    requires Supplies(a.state, t)
    requires !Degenerate(t.w, t.h)
    ensures 6 <= |Start(a, t).app.items|
  {
    var r := Start(a, t).app;
    CountTotal(r.items);
    if Start(a, t).Completed? {
      FrameSize(t.w, t.h, TickColors(a.state), r.items);
    }
  }
}

=== FILE: overlay.dfy ===
/**
 * The editor object's overlay lifecycle and session record
 * (DC404notes.py:119-150, 316-375, 420-424): the pending-timer handle, whether
 * the overlay is lifted above the text, the overlay canvas's items, and the
 * record that is saved whole after every change. Tk's `after` queue is a map
 * from handles to delays; widget configuration is not modelled.
 */
module Overlay {
  import opened Session
  import opened Themes
  import opened Shapes
  import opened Glitch

  /** A handle returned by Tk's `after`; each call yields a fresh one. */
  type Handle = nat

  datatype Option<T> = None | Some(value: T)

  /** Delay, in milliseconds, before the next tick (DC404notes.py:375). */
  const FrameInterval: nat := 80

  /** What a tick reads from outside: the canvas's current size and the random draws. */
  datatype TickInput = TickInput(w: int, h: int, draws: Draws)

  /** The inputs the window system and the random module can supply while the record is `state`. */
  predicate Supplies(state: StateMap, t: TickInput)
  {
    Degenerate(t.w, t.h) || DrawsFit(t.w, t.h, |TickColors(state)|, t.draws)
  }

  datatype App = App(
    state: StateMap,           // the session record in memory
    saved: Disk,               // what the last `save_state` wrote
    job: Option<Handle>,       // `_glitch_job`
    timers: map<Handle, nat>,  // armed `after` callbacks not yet fired or cancelled, with their delays
    nextHandle: Handle,        // the handle the next `after` call returns
    lifted: bool,              // the overlay sits above the text rather than below it
    items: seq<Rect>,          // what the overlay canvas currently shows
    wrapVar: bool,             // the "Wrap Lines" checkbox
    glitchVar: bool,           // the "Glitch Overlay" checkbox
    closed: bool)              // the root window has been destroyed

  /**
   * A handler's outcome. Aborted: `random.randint` raised inside the tick, so the
   * rest of the handler did not run; the app keeps the effects made before that.
   * For an event handler Tk reports the exception and the loop goes on; for the
   * constructor (`Init`) it ends the program.
   */
  datatype Step = Completed(app: App) | Aborted(app: App)

  /** Every handle in use was issued by an earlier `after` call. */
  ghost predicate HandlesIssued(a: App)
  {
    && (forall hd :: hd in a.timers ==> hd < a.nextHandle)
    && (a.job.Some? ==> a.job.value < a.nextHandle)
  }

  /** The durable copy is exactly the in-memory record. */
  predicate Persisted(a: App)
  {
    a.saved == Save(a.state)
  }

  /** The job handle names a callback that is still armed: the animation chain is alive. */
  predicate Animating(a: App)
  {
    a.job.Some? && a.job.value in a.timers
  }

  /** At most one armed callback, and it is the one `_glitch_job` names. */
  predicate SingleChain(a: App)
  {
    forall hd :: hd in a.timers ==> a.job == Some(hd)
  }

  /** `root.after(80, self._schedule_glitch)`, stored in `_glitch_job`. */
  function Arm(a: App): (r: App)
    ensures r.job == Some(a.nextHandle)
    ensures HandlesIssued(a) ==> a.nextHandle !in a.timers && HandlesIssued(r)
    ensures r.timers.Keys == a.timers.Keys + {a.nextHandle} && r.timers[a.nextHandle] == FrameInterval
    ensures forall hd :: hd in a.timers && hd != a.nextHandle ==> r.timers[hd] == a.timers[hd]
    ensures r.nextHandle > a.nextHandle
    ensures r.state == a.state && r.saved == a.saved && r.lifted == a.lifted && r.items == a.items
  {
    a.(job := Some(a.nextHandle),
       timers := a.timers[a.nextHandle := FrameInterval],
       nextHandle := a.nextHandle + 1)
  }

  /**
   * `_schedule_glitch`: one tick now, then re-arm. A skipped tick still
   * re-arms; a tick that raised leaves the job handle and timers untouched.
   */
  function Schedule(a: App, t: TickInput): (r: Step)
    requires Supplies(a.state, t)
    ensures r.app.state == a.state && r.app.saved == a.saved && r.app.lifted == a.lifted
    ensures r.app.closed == a.closed
    ensures r.Aborted? <==> GlitchTick(a.state, t.w, t.h, t.draws).Raised?
    ensures r.Aborted? ==> r.app.job == a.job && r.app.timers == a.timers && r.app.nextHandle == a.nextHandle
    ensures r.Completed? ==> r.app.job == Some(a.nextHandle) && r.app.nextHandle == a.nextHandle + 1
    ensures r.Completed? ==> r.app.timers.Keys == a.timers.Keys + {a.nextHandle}
    ensures r.Completed? ==> r.app.timers[a.nextHandle] == FrameInterval
    ensures Degenerate(t.w, t.h) ==> r.Completed? && r.app.items == a.items
    ensures !Degenerate(t.w, t.h) ==> r.app.items == GlitchTick(a.state, t.w, t.h, t.draws).rects
    ensures !Degenerate(t.w, t.h) ==> AllPlaced(t.w, t.h, TickColors(a.state), r.app.items)
    ensures r.Completed? && !Degenerate(t.w, t.h) ==> FrameShape(t.w, t.h, TickColors(a.state), r.app.items)
    ensures r.app.wrapVar == a.wrapVar && r.app.glitchVar == a.glitchVar
  {
    match GlitchTick(a.state, t.w, t.h, t.draws)
    case Skipped => Completed(Arm(a))
    case Drawn(rs) => Completed(Arm(a.(items := rs)))
    case Raised(rs) => Aborted(a.(items := rs))
  }

  /** `_start_glitch`: lift the overlay, then schedule. It does not look at an existing job. */
  function Start(a: App, t: TickInput): (r: Step)
    requires Supplies(a.state, t)
    ensures r.app.lifted
    ensures r.app.state == a.state && r.app.saved == a.saved && r.app.closed == a.closed
    ensures r.Completed? ==> Animating(r.app) && r.app.job == Some(a.nextHandle)
    ensures r.Completed? ==> forall hd :: hd in a.timers ==> hd in r.app.timers
    ensures Degenerate(t.w, t.h) ==> r.Completed? && r.app.items == a.items
    ensures !Degenerate(t.w, t.h) ==> r.app.items == GlitchTick(a.state, t.w, t.h, t.draws).rects
    ensures r.app.wrapVar == a.wrapVar && r.app.glitchVar == a.glitchVar
  {
    Schedule(a.(lifted := true), t)
  }

  /**
   * `_stop_glitch`: cancel the job if there is one (cancelling a handle that
   * already fired is silently ignored), forget it, clear and lower the overlay.
   */
  function Stop(a: App): (r: App)
    ensures r.job == None && r.items == [] && !r.lifted && !Animating(r)
    ensures a.job.Some? ==> a.job.value !in r.timers
    ensures forall hd :: hd in r.timers <==> hd in a.timers && a.job != Some(hd)
    ensures forall hd :: hd in r.timers ==> r.timers[hd] == a.timers[hd]
    ensures r.state == a.state && r.saved == a.saved && r.nextHandle == a.nextHandle && r.closed == a.closed
    ensures r.wrapVar == a.wrapVar && r.glitchVar == a.glitchVar
  {
    var timers := if a.job.Some? then a.timers - {a.job.value} else a.timers;
    a.(job := None, timers := timers, items := [], lifted := false)
  }

  /**
   * Tk runs an armed callback: the handle leaves the queue and `_schedule_glitch`
   * runs. The callback does not check whether the overlay is still meant to run.
   */
  function Fire(a: App, hd: Handle, t: TickInput): (r: Step)
    requires !a.closed && hd in a.timers
    requires Supplies(a.state, t)
    ensures r.Completed? ==> r.app.timers.Keys == a.timers.Keys - {hd} + {a.nextHandle}
    ensures r.Aborted? ==> r.app.timers.Keys == a.timers.Keys - {hd}
    ensures r.app.lifted == a.lifted && r.app.state == a.state && r.app.saved == a.saved
    ensures r.Completed? ==> Animating(r.app)
    ensures r.Completed? ==> r.app.job == Some(a.nextHandle) && r.app.nextHandle == a.nextHandle + 1
    ensures r.Aborted? ==> r.app.job == a.job && r.app.nextHandle == a.nextHandle
    ensures Degenerate(t.w, t.h) ==> r.Completed? && r.app.items == a.items
    ensures !Degenerate(t.w, t.h) ==> r.app.items == GlitchTick(a.state, t.w, t.h, t.draws).rects
    ensures r.app.wrapVar == a.wrapVar && r.app.glitchVar == a.glitchVar && r.app.closed == a.closed
  {
    Schedule(a.(timers := a.timers - {hd}), t)
  }

  /** `_toggle_glitch`: record and save the checkbox value first, then start or stop. */
  function ToggleGlitch(a: App, t: TickInput): (r: Step)
    requires !a.closed
    requires Supplies(a.state, t)
    ensures GlitchOnKey in r.app.state && r.app.state[GlitchOnKey] == Bool(a.glitchVar)
    ensures AgreeExcept(a.state, r.app.state, GlitchOnKey)
    ensures Persisted(r.app)
    ensures !a.glitchVar ==> r.Completed? && !Animating(r.app) && !r.app.lifted && r.app.items == []
    ensures !a.glitchVar ==> r.app.job == None
    ensures !a.glitchVar ==> forall hd :: hd in r.app.timers <==> hd in a.timers && a.job != Some(hd)
    ensures a.glitchVar ==> r.app.lifted
    ensures a.glitchVar && r.Completed? ==> Animating(r.app) && r.app.job == Some(a.nextHandle)
    ensures a.glitchVar && !Degenerate(t.w, t.h) ==> r.app.items == GlitchTick(r.app.state, t.w, t.h, t.draws).rects
    ensures r.app.wrapVar == a.wrapVar && r.app.glitchVar == a.glitchVar && !r.app.closed
  {
    var s := Put(a.state, GlitchOnKey, Bool(a.glitchVar));
    SameThemeColors(a.state, GlitchOnKey, Bool(a.glitchVar));
    var a' := a.(state := s, saved := Save(s));
    if a.glitchVar then Start(a', t) else Completed(Stop(a'))
  }

  /** `_toggle_wrap`: record the wrap checkbox as a boolean and save. */
  function ToggleWrap(a: App): (r: App)
    requires !a.closed
    ensures WrapKey in r.state && r.state[WrapKey] == Bool(a.wrapVar)
    ensures AgreeExcept(a.state, r.state, WrapKey)
    ensures Persisted(r)
    ensures r.job == a.job && r.timers == a.timers && r.lifted == a.lifted && r.items == a.items
    ensures r.wrapVar == a.wrapVar && r.glitchVar == a.glitchVar && !r.closed
  {
    var s := Put(a.state, WrapKey, Bool(a.wrapVar));
    a.(state := s, saved := Save(s))
  }

  /**
   * `_apply_theme`: store the requested name as given, even one that names no
   * theme, and save; later ticks sample the palette it resolves to.
   */
  function ApplyTheme(a: App, name: Value): (r: App)
    requires !a.closed
    ensures ThemeKey in r.state && r.state[ThemeKey] == name
    ensures AgreeExcept(a.state, r.state, ThemeKey)
    ensures Persisted(r)
    ensures TickColors(r.state) == ResolveValue(name).glitchColors
    ensures r.job == a.job && r.timers == a.timers && r.lifted == a.lifted && r.items == a.items
    ensures r.wrapVar == a.wrapVar && r.glitchVar == a.glitchVar && !r.closed
  {
    var s := Put(a.state, ThemeKey, name);
    a.(state := s, saved := Save(s))
  }

  /**
   * The tail of `_open_path` once the file is read, and of `_save_as` once a
   * path is chosen: remember the path under "last_file" and save.
   */
  function RememberFile(a: App, path: string): (r: App)
    requires !a.closed
    ensures LastFileKey in r.state && r.state[LastFileKey] == Str(path)
    ensures AgreeExcept(a.state, r.state, LastFileKey)
    ensures Persisted(r)
    ensures r.job == a.job && r.timers == a.timers && r.lifted == a.lifted && r.items == a.items
    ensures r.wrapVar == a.wrapVar && r.glitchVar == a.glitchVar && !r.closed
  {
    var s := Put(a.state, LastFileKey, Str(path));
    a.(state := s, saved := Save(s))
  }

  /** `_on_close`: store the window geometry and save, then stop, then destroy the window. */
  function Close(a: App, geometry: string): (r: App)
    requires !a.closed
    ensures GeometryKey in r.state && r.state[GeometryKey] == Str(geometry)
    ensures AgreeExcept(a.state, r.state, GeometryKey)
    ensures Persisted(r)
    ensures r.closed && r.job == None && r.items == [] && !r.lifted
    ensures forall hd :: hd in r.timers <==> hd in a.timers && a.job != Some(hd)
    ensures r.wrapVar == a.wrapVar && r.glitchVar == a.glitchVar
  {
    var s := Put(a.state, GeometryKey, Str(geometry));
    Stop(a.(state := s, saved := Save(s))).(closed := true)
  }

  /**
   * The record after start-up, before the overlay is touched: the loaded record
   * with "wrap" rewritten as a boolean (the last step of building the UI toggles
   * wrap) and "theme" written back with its default (applying the theme).
   */
  function InitialState(d: Disk): (s: StateMap)
    ensures WrapKey in s && s[WrapKey] == Bool(Truthy(Get(Load(d), WrapKey, Bool(true))))
    ensures ThemeKey in s && s[ThemeKey] == Get(Load(d), ThemeKey, Str(DefaultTheme))
    ensures forall k :: k != WrapKey && k != ThemeKey ==> (k in s <==> k in Load(d)) && (k in s ==> s[k] == Load(d)[k])
    ensures TickColors(s) == TickColors(Load(d))
  {
    var loaded := Load(d);
    var s1 := Put(loaded, WrapKey, Bool(Truthy(Get(loaded, WrapKey, Bool(true)))));
    SameThemeColors(loaded, WrapKey, Bool(Truthy(Get(loaded, WrapKey, Bool(true)))));
    Put(s1, ThemeKey, Get(s1, ThemeKey, Str(DefaultTheme)))
  }

  /**
   * The editor's constructor: load, build the UI, apply the theme, resume the
   * overlay if it was on. An Aborted result means the constructor raised and the
   * editor never started; its app is only what had been built by then.
   */
  function Init(d: Disk, t: TickInput): (r: Step)
    requires Supplies(InitialState(d), t)
    ensures Persisted(r.app) && r.app.state == InitialState(d)
    ensures !r.app.closed
    ensures r.app.lifted <==> Truthy(Get(Load(d), GlitchOnKey, Bool(false)))
    ensures r.Completed? ==> (Animating(r.app) <==> Truthy(Get(Load(d), GlitchOnKey, Bool(false))))
    ensures r.app.wrapVar == Truthy(Get(Load(d), WrapKey, Bool(true)))
    ensures r.app.glitchVar == Truthy(Get(Load(d), GlitchOnKey, Bool(false)))
    ensures r.Completed? ==> SingleChain(r.app) && HandlesIssued(r.app)
  {
    var s := InitialState(d);
    var on := Truthy(Get(s, GlitchOnKey, Bool(false)));
    var a := App(s, Save(s), None, map[], 0, false, [], Truthy(Get(s, WrapKey, Bool(true))), on, false);
    if on then Start(a, t) else Completed(a)
  }

  /** Writing a key other than "theme" leaves the colours a tick samples unchanged. */
  lemma SameThemeColors(m: StateMap, key: string, v: Value)
    requires key != ThemeKey
    ensures TickColors(Put(m, key, v)) == TickColors(m)
  {
    assert Get(Put(m, key, v), ThemeKey, Str(DefaultTheme)) == Get(m, ThemeKey, Str(DefaultTheme));
  }
}

=== FILE: session.dfy ===
/**
 * The session record: the flat key/value document the notes editor keeps in
 * memory as `state`, reads once at start-up and writes back whole after every
 * change (DC404notes.py:105-117).
 */
module Session {

  /** A value stored under a key of the record, as JSON gives it back. */
  datatype Value = Str(s: string) | Bool(b: bool) | Int(i: int) | Null

  /** The in-memory record: JSON object keys are always strings. */
  type StateMap = map<string, Value>

  const GeometryKey := "geometry"
  const ThemeKey := "theme"
  const WrapKey := "wrap"
  const LastFileKey := "last_file"
  const GlitchOnKey := "glitch_on"

  /** `m.get(key, default)`. */
  function Get(m: StateMap, key: string, default: Value): Value
  {
    if key in m then m[key] else default
  }

  /** Python truthiness of a stored value, as used by `if state.get(...)`. */
  predicate Truthy(v: Value)
  {
    match v
    case Str(s) => s != ""
    case Bool(b) => b
    case Int(i) => i != 0
    case Null => false
  }

  /** `m[key] = v`: the key is bound to v and every other key is as it was. */
  function Put(m: StateMap, key: string, v: Value): (r: StateMap)
    ensures key in r && r[key] == v
    ensures AgreeExcept(m, r, key)
    ensures r.Keys == m.Keys + {key}
  {
    m[key := v]
  }

  /** m and m' bind the same keys to the same values, except possibly `key`. */
  ghost predicate AgreeExcept(m: StateMap, m': StateMap, key: string)
  {
    forall k :: k != key ==> (k in m <==> k in m') && (k in m ==> m[k] == m'[k])
  }

  /**
   * The durable copy of the record. Absent: no file yet. Unreadable: the file
   * cannot be opened or does not parse. Document: what the last save wrote.
   */
  datatype Disk = Absent | Unreadable | Document(contents: StateMap)

  /** `load_state`: the stored record, or the empty record on any failure. */
  function Load(d: Disk): (m: StateMap)
    ensures d.Document? ==> m == d.contents
    ensures !d.Document? ==> |m| == 0
  {
    match d
    case Document(contents) => contents
    case _ => map[]
  }

  /** `save_state`: the whole record replaces whatever was stored. */
  function Save(m: StateMap): (d: Disk)
    ensures d.Document?
  {
    Document(m)
  }

  /** What is saved is what the next start-up loads. */
  lemma LoadAfterSave(m: StateMap)
    ensures Load(Save(m)) == m
  {
  }

  /** A missing or unreadable file reads as the empty record; every key then takes its default. */
  lemma LoadFailureDefaults(d: Disk, key: string, default: Value)
    requires !d.Document?
    ensures Get(Load(d), key, default) == default
  {
  }
}

=== FILE: shapes.dfy ===
/**
 * What a glitch frame looks like, stated independently of how it is drawn:
 * the rectangles one tick puts on the overlay canvas (DC404notes.py:386-417),
 * their geometry, colours and back-to-front order.
 */
module Shapes {
  import opened Themes

  /** Which `create_rectangle` call produced a rectangle. */
  datatype Origin = ScanLine | Parallax | Block | ChromaSplit | Flash

  /** The half-tone pattern each kind of rectangle is drawn with, standing in for opacity. */
  datatype Stipple = Gray50 | Gray25 | Gray12

  /** A canvas rectangle with corners (x0, y0) and (x1, y1), no outline. */
  datatype Rect = Rect(x0: int, y0: int, x1: int, y1: int, fill: Color, origin: Origin)

  /** The `stipple=` option each kind of rectangle is created with. */
  function StippleOf(o: Origin): Stipple
  {
    match o
    case ScanLine => Gray50
    case Parallax => Gray25
    case Block => Gray25
    case ChromaSplit => Gray50
    case Flash => Gray12
  }

  /** Drawing layer: scanlines, then blocks, then the flash on top. */
  function Layer(o: Origin): nat
  {
    match o
    case ScanLine => 0
    case Parallax => 0
    case Block => 1
    case ChromaSplit => 1
    case Flash => 2
  }

  function Max(a: int, b: int): int
  {
    if a < b then b else a
  }

  /**
   * Bounds of the block-width draw. The canvas width is positive here, and for a
   * positive divisor Dafny's `/` is the same floor division as Python's `//`.
   */
  function BlockWidthMin(w: int): int
  {
    Max(20, w / 10)
  }

  function BlockWidthMax(w: int): int
  {
    Max(50, w / 4)
  }

  /** The offsets `random.choice` picks from for a chromatic-split copy. */
  const SplitDx: seq<int> := [-6, -3, 3, 6]
  const SplitDy: seq<int> := [-2, -1, 1, 2]

  function Width(r: Rect): int
  {
    r.x1 - r.x0
  }

  function Height(r: Rect): int
  {
    r.y1 - r.y0
  }

  /** A base scanline: full canvas width, 1 to 3 pixels tall, starting within the top h-2 rows. */
  predicate ScanLineFits(w: int, h: int, r: Rect)
  {
    && r.x0 == 0 && r.x1 == w
    && 0 <= r.y0 <= Max(1, h - 2)
    && 1 <= Height(r) <= 3
  }

  /** A parallax copy: same colour and size, shifted at most 6 pixels sideways and one pixel down. */
  predicate ParallaxOf(base: Rect, c: Rect)
  {
    && c.fill == base.fill
    && -6 <= c.x0 - base.x0 <= 6
    && Width(c) == Width(base)
    && c.y0 == base.y0 + 1
    && Height(c) == Height(base)
  }

  /**
   * A block: width between the two width bounds, 8 to 24 pixels tall, its left
   * edge at most 10 pixels outside either side of the canvas and its top within it.
   */
  predicate BlockFits(w: int, h: int, r: Rect)
  {
    && BlockWidthMin(w) <= Width(r) <= BlockWidthMax(w)
    && 8 <= Height(r) <= 24
    && -10 <= r.x0 <= w - Width(r) + 10
    && 0 <= r.y0 <= Max(1, h - Height(r))
  }

  /** A chromatic-split copy: same size as its block, offset by one of the fixed small vectors. */
  predicate SplitOf(base: Rect, c: Rect)
  {
    && c.x0 - base.x0 in SplitDx
    && c.y0 - base.y0 in SplitDy
    && Width(c) == Width(base)
    && Height(c) == Height(base)
  }

  /** The flash covers the whole canvas. */
  predicate FlashFits(w: int, h: int, r: Rect)
  {
    r.x0 == 0 && r.y0 == 0 && r.x1 == w && r.y1 == h
  }

  predicate IsCopy(o: Origin)
  {
    o == Parallax || o == ChromaSplit
  }

  /**
   * The k-th rectangle of rs is well formed: its colour is one of `colors`, a base
   * rectangle has the geometry of its kind, and a copy directly follows the base
   * it copies.
   */
  predicate Placed(w: int, h: int, colors: seq<Color>, rs: seq<Rect>, k: int)
    requires 0 <= k < |rs|
  {
    && rs[k].fill in colors
    && match rs[k].origin
       case ScanLine => ScanLineFits(w, h, rs[k])
       case Parallax => 0 < k && rs[k - 1].origin == ScanLine && ParallaxOf(rs[k - 1], rs[k])
       case Block => BlockFits(w, h, rs[k])
       case ChromaSplit => 0 < k && rs[k - 1].origin == Block && SplitOf(rs[k - 1], rs[k])
       case Flash => FlashFits(w, h, rs[k])
  }

  predicate AllPlaced(w: int, h: int, colors: seq<Color>, rs: seq<Rect>)
  {
    forall k :: 0 <= k < |rs| ==> Placed(w, h, colors, rs, k)
  }

  /** Back-to-front order: no rectangle is drawn after one of a higher layer. */
  predicate LayerSorted(rs: seq<Rect>)
  {
    forall a, b :: 0 <= a < b < |rs| ==> Layer(rs[a].origin) <= Layer(rs[b].origin)
  }

  predicate AllInLayer(rs: seq<Rect>, layer: nat)
  {
    forall k :: 0 <= k < |rs| ==> Layer(rs[k].origin) == layer
  }

  /** How many rectangles of one kind a sequence holds. */
  function Count(rs: seq<Rect>, o: Origin): nat
  {
    if |rs| == 0 then 0 else (if rs[0].origin == o then 1 else 0) + Count(rs[1..], o)
  }

  /**
   * A complete frame: every rectangle well formed, drawn back to front, with
   * 6 to 12 scanlines, 2 to 5 blocks and at most one flash.
   */
  predicate FrameShape(w: int, h: int, colors: seq<Color>, rs: seq<Rect>)
  {
    && AllPlaced(w, h, colors, rs)
    && LayerSorted(rs)
    && 6 <= Count(rs, ScanLine) <= 12
    && 2 <= Count(rs, Block) <= 5
    && Count(rs, Flash) <= 1
  }

  /** Counting distributes over concatenation. */
  lemma {:induction false} CountConcat(a: seq<Rect>, b: seq<Rect>, o: Origin)
    ensures Count(a + b, o) == Count(a, o) + Count(b, o)
  {
    if |a| == 0 {
      assert a + b == b;
    } else {
      assert (a + b)[1..] == a[1..] + b;
      CountConcat(a[1..], b, o);
    }
  }

  function Indicator(b: bool): nat
  {
    if b then 1 else 0
  }

  lemma CountOne(a: Rect, o: Origin)
    ensures Count([a], o) == Indicator(a.origin == o)
  {
    assert [a][1..] == [];
  }

  lemma CountTwo(a: Rect, b: Rect, o: Origin)
    ensures Count([a, b], o) == Indicator(a.origin == o) + Indicator(b.origin == o)
  {
    assert [a, b][1..] == [b];
    CountOne(b, o);
  }

  /** Every rectangle is counted under exactly one kind. */
  lemma {:induction false} CountTotal(rs: seq<Rect>)
    ensures |rs| == Count(rs, ScanLine) + Count(rs, Parallax) + Count(rs, Block)
                    + Count(rs, ChromaSplit) + Count(rs, Flash)
  {
    if |rs| > 0 {
      CountTotal(rs[1..]);
    }
  }

  /** A sequence drawn entirely on one layer holds no rectangle of another layer's kinds. */
  lemma {:induction false} CountOffLayer(rs: seq<Rect>, layer: nat, o: Origin)
    requires AllInLayer(rs, layer)
    requires Layer(o) != layer
    ensures Count(rs, o) == 0
  {
    if |rs| > 0 {
      assert Layer(rs[0].origin) == layer;
      CountOffLayer(rs[1..], layer, o);
    }
  }

  /** Appending keeps every rectangle well formed when the second part does not start with a copy. */
  lemma PlacedConcat(w: int, h: int, colors: seq<Color>, a: seq<Rect>, b: seq<Rect>)
    requires AllPlaced(w, h, colors, a)
    requires AllPlaced(w, h, colors, b)
    requires |b| > 0 ==> !IsCopy(b[0].origin)
    ensures AllPlaced(w, h, colors, a + b)
  {
    var ab := a + b;
    forall k | 0 <= k < |ab|
      ensures Placed(w, h, colors, ab, k)
    {
      if k < |a| {
        assert ab[k] == a[k];
        if 0 < k {
          assert ab[k - 1] == a[k - 1];
        }
        assert Placed(w, h, colors, a, k);
      } else {
        var j := k - |a|;
        assert ab[k] == b[j];
        if 0 < j {
          assert ab[k - 1] == b[j - 1];
        }
        assert Placed(w, h, colors, b, j);
      }
    }
  }

  /** Three runs of constant, increasing layers form a back-to-front sequence. */
  lemma LayersConcat(s: seq<Rect>, bl: seq<Rect>, f: seq<Rect>)
    requires AllInLayer(s, 0) && AllInLayer(bl, 1) && AllInLayer(f, 2)
    ensures LayerSorted(s + bl + f)
    ensures AllInLayer(s, 0) && AllInLayer(bl, 1) ==> LayerSorted(s + bl)
  {
    var all := s + bl + f;
    forall a, b | 0 <= a < b < |all|
      ensures Layer(all[a].origin) <= Layer(all[b].origin)
    {
      var la := if a < |s| then 0 else if a < |s| + |bl| then 1 else 2;
      var lb := if b < |s| then 0 else if b < |s| + |bl| then 1 else 2;
      if a < |s| { assert all[a] == s[a]; }
      else if a < |s| + |bl| { assert all[a] == bl[a - |s|]; }
      else { assert all[a] == f[a - |s| - |bl|]; }
      if b < |s| { assert all[b] == s[b]; }
      else if b < |s| + |bl| { assert all[b] == bl[b - |s|]; }
      else { assert all[b] == f[b - |s| - |bl|]; }
    }
    assert s + bl + [] == s + bl;
    var two := s + bl;
    forall a, b | 0 <= a < b < |two|
      ensures Layer(two[a].origin) <= Layer(two[b].origin)
    {
      if a < |s| { assert two[a] == s[a]; } else { assert two[a] == bl[a - |s|]; }
      if b < |s| { assert two[b] == s[b]; } else { assert two[b] == bl[b - |s|]; }
    }
  }

  /**
   * Copies never outnumber the bases they copy: each parallax line sits right
   * after a scanline and each chromatic split right after a block.
   */
  lemma CopiesBounded(w: int, h: int, colors: seq<Color>, rs: seq<Rect>)
    requires AllPlaced(w, h, colors, rs)
    ensures Count(rs, Parallax) <= Count(rs, ScanLine)
    ensures Count(rs, ChromaSplit) <= Count(rs, Block)
  {
    forall k | 0 <= k < |rs|
      ensures FollowsBase(rs, k)
    {
      assert Placed(w, h, colors, rs, k);
    }
    assert CopiesFollow(rs);
    CopiesFollowBases(rs);
  }

  /** Each copy directly follows a base of its own kind. */
  ghost predicate CopiesFollow(rs: seq<Rect>)
  {
    forall k :: 0 <= k < |rs| ==> FollowsBase(rs, k)
  }

  ghost predicate FollowsBase(rs: seq<Rect>, k: int)
    requires 0 <= k < |rs|
  {
    && (rs[k].origin == Parallax ==> 0 < k && rs[k - 1].origin == ScanLine)
    && (rs[k].origin == ChromaSplit ==> 0 < k && rs[k - 1].origin == Block)
  }

  lemma {:induction false} CopiesFollowBases(rs: seq<Rect>)
    requires CopiesFollow(rs)
    ensures Count(rs, Parallax) <= Count(rs, ScanLine)
    ensures Count(rs, ChromaSplit) <= Count(rs, Block)
    decreases |rs|
  {
    if |rs| > 0 {
      assert FollowsBase(rs, 0);
      if |rs| >= 2 && IsCopy(rs[1].origin) {
        assert FollowsBase(rs, 1);
        if 2 < |rs| {
          assert FollowsBase(rs, 2);
        }
        CopiesFollowSuffix(rs, 2);
        CopiesFollowBases(rs[2..]);
        assert rs[1..][1..] == rs[2..];
      } else {
        CopiesFollowSuffix(rs, 1);
        CopiesFollowBases(rs[1..]);
      }
    }
  }

  /** Dropping a prefix keeps copies after their bases, provided the cut is not right before a copy. */
  lemma CopiesFollowSuffix(rs: seq<Rect>, d: nat)
    requires CopiesFollow(rs)
    requires d <= |rs|
    requires d < |rs| ==> !IsCopy(rs[d].origin)
    ensures CopiesFollow(rs[d..])
  {
    var rest := rs[d..];
    forall k | 0 <= k < |rest|
      ensures FollowsBase(rest, k)
    {
      assert rest[k] == rs[k + d];
      assert FollowsBase(rs, k + d);
      if 0 < k {
        assert rest[k - 1] == rs[k + d - 1];
      }
    }
  }

  /** Every complete frame holds between 8 and 35 rectangles. */
  lemma FrameSize(w: int, h: int, colors: seq<Color>, rs: seq<Rect>)
    requires FrameShape(w, h, colors, rs)
    ensures 8 <= |rs| <= 35
  {
    CopiesBounded(w, h, colors, rs);
    CountTotal(rs);
  }
}

=== FILE: themes.dfy ===
/**
 * The theme registry: a closed table of named palettes (DC404notes.py:75-103)
 * and the lookup with fallback `THEMES.get(name, THEMES["Dark"])`.
 */
module Themes {
  import opened Session

  type Color = string

  /** One palette: the widget colours and the colours the glitch overlay samples from. */
  datatype Palette = Palette(
    bg: Color,
    fg: Color,
    accent: Color,
    textBg: Color,
    insert: Color,
    selBg: Color,
    glitchColors: seq<Color>)

  const DefaultTheme := "Dark"

  const DarkPalette := Palette("#0f1115", "#e6e6e6", "#7aa2f7", "#0f1115", "#7aa2f7", "#1f2335",
                               ["#ff2d55", "#00e5ff", "#ffd400"])
  const LightPalette := Palette("#fafafa", "#0f1115", "#3a5ccc", "#ffffff", "#3a5ccc", "#e7ecff",
                                ["#ff4d4f", "#36cfc9", "#fadb14"])
  const DarkGlitchPalette := Palette("#05060a", "#d7dae0", "#ff2d55", "#05060a", "#ff2d55", "#141623",
                                     ["#ff2d55", "#06d6a0", "#00e5ff", "#ffd400"])

  /** `THEMES`. */
  const Registry: map<string, Palette> :=
    map["Dark" := DarkPalette, "Light" := LightPalette, "Dark Glitch" := DarkGlitchPalette]

  /** `THEMES.get(name, THEMES["Dark"])`: never fails, and always has colours to sample. */
  function Resolve(name: string): (p: Palette)
    ensures p == DarkPalette || p == LightPalette || p == DarkGlitchPalette
    ensures 3 <= |p.glitchColors| <= 4
    ensures name != "Light" && name != "Dark Glitch" ==> p == DarkPalette
  {
    if name in Registry then Registry[name] else Registry[DefaultTheme]
  }

  /**
   * The same lookup with whatever value the session record holds under "theme":
   * a non-string key is hashable but matches no theme name, so it falls back too.
   */
  function ResolveValue(v: Value): (p: Palette)
    ensures v.Str? ==> p == Resolve(v.s)
    ensures !v.Str? ==> p == DarkPalette
    ensures |p.glitchColors| > 0
  {
    match v
    case Str(name) => Resolve(name)
    case _ => Registry[DefaultTheme]
  }

  /** Each of the three names selects its own palette, and only that name does. */
  lemma ResolveSelectsNamed(name: string)
    ensures Resolve(name) == LightPalette <==> name == "Light"
    ensures Resolve(name) == DarkGlitchPalette <==> name == "Dark Glitch"
    ensures Resolve(name) == DarkPalette <==> name != "Light" && name != "Dark Glitch"
  {
  }

  /** An unknown name resolves exactly as the default name does. */
  lemma UnknownFallsBackToDefault(name: string)
    requires name !in Registry
    ensures Resolve(name) == Resolve(DefaultTheme)
  {
  }

  /** No palette in the table has an empty colour list, so `random.choice` never fails on it. */
  lemma EveryPaletteHasGlitchColors()
    ensures forall name :: name in Registry ==> |Registry[name].glitchColors| > 0
    ensures Registry.Keys == {"Dark", "Light", "Dark Glitch"}
  {
  }
}
